=== FILE: README.md ===
# guideline: a Dafny model of the compile-time half of `lib/guideline.js`

`lib/guideline.js` is a small runtime guard for JavaScript functions. A
function gets a list of *guidelines*, one per parameter: a type tag
(`'string'`), a list of tags (`['string', 'number']`), a predicate function,
or an object with `types`, `default` and `defaults` fields. `decorator(fn,
guidelines)` compiles the list into an array of *validators* and an array of
*populators* (default fillers). This project models that compilation and the
behaviour of what it compiles:

- **Type tags** (`types.dfy`): `type`, `isType` and `isFunction` over a
  `Value` datatype of JavaScript values. The `type-of` classifier is a plain
  definition that gives one tag per value.
- **Resolver** (`typemap.dfy`): `typeMap(table)` is an ordered dispatch. It
  tries `empty`, then `container`, then `primitive`, then the value's exact
  tag, then `default`, and otherwise passes the value through. `Resolve`
  models this chain. `FirstApplicable` is an independent reference for "first
  rule in the priority list whose handler exists and whose guard holds".
- **Validator compiler** (`validators.dfy`): the `validators` table and
  `validatorMap = typeMap(validators)`. Validators are data (`Missing`, `TagIs`,
  `TagIn`, `Custom`, `Each`). `Check` interprets them, and its result agrees
  with the reference predicate `Accepts`, which is written with `isType`.
  Exceptions become `Error` values.
- **Decorator** (`decorator.dfy`): how the guideline list is found, the
  validator array, the populator array, and the two variables `dflt` and
  `defaults` that all populators share.
- **Library pieces** (`lodash.dfy`, `values.dfy`, `text.dfy`): lodash 2.x
  `_.isEmpty`, `_.isObject`, the iteration order of `_.map` and
  `_.defaults`, plus JavaScript truthiness, property reads, `String()`,
  `%d` and `Array.prototype.join`. All are simple definitions.
- **Scenarios** (`scenarios.dfy`): worked decorations of small guideline
  lists.

The model follows the code. In four places the code's own structure shows
an intent that the code as written does not carry out:

- `'empty': noop` (lib/guideline.js:145) puts a do-nothing function in the
  table, which reads as an accept-all validator for empty guidelines. But
  `noop` is the compiler, and `typeMap` returns what it returns
  (lib/guideline.js:72-73). So an empty entry leaves `undefined` in its
  validator slot (`Missing`), and calling that slot throws a TypeError for
  every value.
  - A predicate guideline counts as empty unless the function has own
    enumerable properties, because `_.isEmpty` says a plain function is
    empty.
  - An element such as `5` in an object guideline's `types` array is empty
    too, and it makes that guideline reject every value.
- `main_processor` and `sub_processors` (lib/guideline.js:126-133) are built
  to check an object and then each of its named properties. Compiling a
  guideline whose `types` is such a per-property map throws instead. Inside
  `validateObject`, `validators` is the local array, and
  `validators.string` on that array is `undefined`.
- Each populator closure (lib/guideline.js:167-179) is built for its own
  entry. Every one of them, however, reads the variables `dflt`/`defaults`
  that the loop reassigns (lib/guideline.js:165-166). So they all see the
  `default`/`defaults` of the last object-typed entry.
- `checkArg` with `splice` (lib/guideline.js:193-204) is built to insert
  `undefined` for skipped arguments. The call-time wrapper never completes
  that reconciliation and never calls the wrapped function (see "Left
  out").

## Model

| member | source | states |
|---|---|---|
| `Types.Type` | lib/guideline.js:24-32 | with one argument the result is that argument's tag, with none it is "undefined"; with more it is an array with one entry per argument |
| `Types.TypeManyIsEach` | lib/guideline.js:24-32 | classifying several values at once gives, at each position, the tag of that value alone |
| `Types.IsType` | lib/guideline.js:34-39 | for an array of tags: true iff the value's tag is one of the members; for anything else: true iff it equals the value's tag (a non-array is wrapped into a one-element list) |
| `Types.IsTypeSingleTag` | lib/guideline.js:34-39 | a single tag behaves as the one-element list holding it, and matches exactly the values carrying that tag |
| `Types.IsFunction` | lib/guideline.js:51-53 | true exactly for function values |
| `TypeMap.Resolve` | lib/guideline.js:70-88 | the chosen rule's handler exists and its guard holds, no earlier rule applies, pass-through only when no rule applies, the `default` handler gets no extra arguments and every other handler gets all of them |
| `TypeMap.ResolveIsFirstMatch` | lib/guideline.js:70-88 | dispatch equals the first applicable rule of the order empty, container, primitive, exact tag, default; with no applicable rule the value is returned unchanged |
| `Validators.Check` | lib/guideline.js:104-143 | a compiled validator succeeds iff the `isType`-based reference `Accepts` holds; it raises only tag mismatches (whose "got" part is the value's tag), the predicate's own failure on that value, or the TypeError of calling the `undefined` an empty entry left behind |
| `Validators.FormatIndex` | lib/guideline.js:8 | `%d` of a position reads back as that position; of a digit-string key, as the key's value; any key that is not a digit string prints "NaN" (narrower than `Number()`, see "Left out") |
| `Validators.Message` | lib/guideline.js:104-109 | the text starts with "Incompatible type for parameter " and ends with the actual tag and "]" |
| `Validators.MessageReadsBack` | lib/guideline.js:8 | after the prefix comes a run of digits ended by ':' whose value is the parameter's position |
| `Validators.ExpectedList` | lib/guideline.js:112 | the expected part is each tag as `join` renders it, separated by ", " |
| `Validators.EachFirstFailure` | lib/guideline.js:139-143 | a combined validator succeeds iff every part does; otherwise it fails with the failure of the first failing part |
| `Validators.Compile` | lib/guideline.js:103-148 | the only compile error is calling `undefined` (the missing `validators.string`), nested errors included; an empty entry compiles to the `undefined` slot that `noop` returns |
| `Validators.CompilerDispatch` | lib/guideline.js:145-148 | `validatorMap` never passes an entry through, picks `empty` for empty entries and the exact-tag compiler otherwise, and forwards the index |
| `Validators.EmptyEntry` | lib/guideline.js:70-73 | an entry that `_.isEmpty` accepts is compiled by `noop`, so its slot is `undefined` and rejects every value with a TypeError |
| `Validators.EmptyElementRejectsAll` | lib/guideline.js:136-143 | an object entry whose `types` array holds an empty element builds a combination that rejects every value |
| `Validators.StringEntry` | lib/guideline.js:104-110 | the validator for string `s` at index `i` accepts a value iff its tag is `s`; otherwise it fails with "Incompatible type for parameter i: Expected [s]; got [tag]" |
| `Validators.ArrayEntry` | lib/guideline.js:111-117 | the validator for tag list `S` accepts a value iff `isType(value, S)`; otherwise it fails with the same message and `S` joined by ", " |
| `Validators.FunctionEntry` | lib/guideline.js:118-120 | a non-empty function entry is its own validator and rejects exactly the values on which it throws |
| `Validators.ShapeMapFails` | lib/guideline.js:125-134 | an object entry whose `types` is an object makes compilation throw |
| `Validators.ObjectEntryUnfolds` | lib/guideline.js:135-143 | when `types` is not an object, the entry compiles iff every item `_.map` visits in `types` compiles; then part `i` is item `i` compiled with its index; otherwise the error is that of the first failing item, all items before it having compiled |
| `Validators.Combine` | lib/guideline.js:136-143 | the combined validator exists iff every item compiled, has one part per item in order, and otherwise carries the first item's error |
| `Validators.SequenceTypesEntry` | lib/guideline.js:135-143 | with `types` an array, part `i` of the combined validator is the element at position `i` compiled with index `i`, and compilation fails iff some element's does |
| `Validators.AbsentTypesAcceptsAll` | lib/guideline.js:136-143 | an object entry without `types` compiles to an empty combination, which accepts every value |
| `Decorator.Guidelines` | lib/guideline.js:157 | a truthy explicit list wins; otherwise `fn.$guidelines` is read, and that read throws exactly for `undefined`/`null` |
| `Decorator.Decorate` | lib/guideline.js:151-182 | the result is `fn` unchanged, or arrays of validators and populators with one entry per guideline, where validator `i` is entry `i` compiled with its index; the only errors are the failed read and the failed compilation |
| `Decorator.DecorateFallsBack` | lib/guideline.js:157-160 | `fn` is returned unchanged iff neither the explicit list nor `fn.$guidelines` is truthy |
| `Decorator.DecorateAligned` | lib/guideline.js:162-182 | for a guideline array, validator `i` is `validatorMap(guidelines[i], i)` and populator `i` is built from `guidelines[i]`; decoration succeeds iff every entry compiles |
| `Decorator.SharedIsLastObjectEntry` | lib/guideline.js:163-166 | the shared `dflt`/`defaults` hold the fields of the last object-typed entry |
| `Decorator.SharedWithoutObjectEntry` | lib/guideline.js:152-155 | with no object-typed entry the shared variables stay `undefined` |
| `Decorator.PopulatorFor` | lib/guideline.js:163-181 | no populator for a non-object entry; a default populator iff the entry's `default` is truthy; a defaults populator iff `default` is falsy and `defaults` truthy; the identity otherwise |
| `Decorator.Populate` | lib/guideline.js:167-180 | a default populator returns the shared default exactly for `undefined`; a defaults populator keeps the set properties of an object or function value and fills the others (never a function's `length`, `name` or `prototype`), keeps the set positions of an array and fills the others from the defaults' numeral keys, and returns any other value as it is; the identity returns its input; a missing populator throws |
| `Decorator.DefaultPopulator` | lib/guideline.js:164-174 | an object entry with a truthy `default` yields a populator that returns the last object entry's default iff the value is `undefined`, else the value |
| `Decorator.DefaultsPopulator` | lib/guideline.js:175-179 | an object entry with a truthy `defaults` and no truthy `default` fills the value's unset properties from the last object entry's `defaults` and overwrites none |
| `Decorator.OtherPopulators` | lib/guideline.js:180-181 | any other object entry yields the identity, and a non-object entry leaves a hole that throws when called |
| `Lodash.DefaultsFillsMissing` | lib/guideline.js:176-178 | `_.defaults` keeps set properties, takes unset ones from the source, and neither loses nor invents keys |
| `Lodash.DefaultsFunction` | lib/guideline.js:176-178 | on a function, `length`, `name` and `prototype` and every other set property stay, unset ones come from the source, and the function itself is the same |
| `Lodash.DefaultsArray` | lib/guideline.js:176-178 | on an array, set positions stay and a position that reads `undefined`, past the end included, takes the source's value under its numeral key; the array never shrinks |
| `Lodash.DefaultsIdempotent` | lib/guideline.js:176-178 | filling the same defaults twice reads the same as filling them once |
| `Scenarios.NoGuidelinesIsIdentity` | lib/guideline.js:157-160 | a function with no guidelines is returned unchanged |
| `Scenarios.SingleStringGuideline` | lib/guideline.js:162-182 | `['string']` gives one exact-tag validator at position 0 and no populator |
| `Scenarios.StringValidatorMessage` | lib/guideline.js:104-110 | that validator accepts "hello" and rejects 42 with "Incompatible type for parameter 0: Expected [string]; got [number]" |
| `Scenarios.UnionGuideline` | lib/guideline.js:111-117 | `['string', 'number']` accepts "x" and 5 and rejects `true` with "Expected [string, number]; got [boolean]" |
| `Scenarios.ShapeGuidelineThrows` | lib/guideline.js:125-134 | `[{types: {name: 'string'}, defaults: {name: 'anonymous'}}]` makes decoration throw |
| `Scenarios.PlainPredicateGuideline` | lib/guideline.js:70-73 | `[function (v) {}]` leaves `undefined` as the only validator, which throws for every value |
| `Scenarios.EmptyTypeElementGuideline` | lib/guideline.js:136-143 | `[{types: [5]}]` builds a combination around `undefined` that throws for every value |
| `Scenarios.DefaultGuideline` | lib/guideline.js:164-174 | `[{default: 1}]` validates nothing and turns an omitted argument into 1 |

## Left out

- The call-time wrapper (lib/guideline.js:184-223). It never invokes `fn` and always returns `undefined`. At line 209 it calls `checkArg` with a single argument, so the index is `undefined`. Its `while (true)` loop has an empty branch at line 218 and can spin forever. It has no terminating behaviour to state, and no reconciliation algorithm is put in its place. For the same reason, the effect of decorating an already decorated function is not modelled.
- `guide` (lib/guideline.js:55-62). It calls `decorate`, which is declared but never assigned. Its collection branch relies on `sift` (lib/guideline.js:44-49), which reads `this`, and `this` is `undefined` in strict mode.
- `apply` (lib/guideline.js:64-68). Nothing uses it.
- `typeMap.$guidelines` (lib/guideline.js:90-101). It is documentation data and nothing enforces it.
- The returned wrapper function itself. `Decorated.Wrapped` records `fn` and the compiled arrays instead of a closure.
- Predicate guidelines. What a user function does when it is called is the oracle `raises`. Its return value is ignored, as in the source. Its side effects are not modelled.
- `Types.TypeOf` knows only the eight tags of the `Value` datatype. `type-of`'s `date`, `regexp`, `arguments` and `element` tags have no values here. Numbers are integers: there is no NaN, no Infinity and no fractions.
- `Lodash.Items` treats an object with a numeric `length` property as a plain object. lodash 2.x would walk it by position.
- `Lodash.Items` walks a string by Unicode scalar values. `_.map` walks JavaScript's UTF-16 code units, so a string holding a character outside the Basic Multilingual Plane gives one item per surrogate there, and one item in the model.
- `Lodash.Defaults` fills an array target only through index keys ("0", "1", ...). A source key that is not an index would become a named property of the array, which the model's arrays cannot hold, so it is dropped. Keys of 2^32 - 1 and above are treated as indices, although JavaScript makes them named properties. Holes are represented as `undefined`, which is what reading them gives.
- `Lodash.Defaults` treats only the own properties `length`, `name` and `prototype` as always set on a function. The model never fills `prototype`, although an arrow function has none, so `_.defaults` would fill it there. Properties inherited from a prototype (`toString` on any object, `call` and `bind` on a function, `push` on an array) read as set in JavaScript, so `_.defaults` never fills them, while the model does.
- `Values.Property` does not look up properties inherited from prototypes. Object key order follows insertion; JavaScript's ordering of integer-like keys is not modelled.
- `Validators.FormatIndex` follows `Number()` only for the empty string and for digit strings whose value is below 2^53. A larger value is rounded to the nearest double by `Number()`, and printed in exponent form from 10^21 on, while the model prints it exactly. Every other property name prints as "NaN" in the model, although `Number()` reads many of them as numbers: surrounding whitespace, a sign, a decimal point (".5", "1.5"), an exponent, "Infinity", and hex, binary and octal prefixes ("0x1", "0b1", "0o7"). Such an index only arises when the guideline list is a plain object.
- `Decorator.Populate` returns a new value for a defaults populator. `_.defaults` writes the missing properties into the caller's own object and returns that same object, sharing the members of `defaults` (and a default populator shares `dflt`) by reference. The model has no object identity, so neither the mutation nor the aliasing is modelled.
- `Lodash.DefaultsFillsMissing` requires the source's keys to be distinct. Every JavaScript object meets this; the field-list representation does not enforce it.
- `Gruntfile.js` is build configuration and has no runtime logic.

=== FILE: decorator.dfy ===
/** The compile-time half of `decorator(fn, guidelines)`: finding the
    guideline list, compiling it into validators, and building the populators
    that fill in defaults. The wrapper it returns is not modelled; its
    compiled arrays are. */
module Decorator {
  import opened Wrappers
  import opened Text
  import opened Values
  import opened Lodash
  import opened Types
  import opened Validators

  /** What a guideline entry contributes to the populator array. */
  datatype Populator =
      /** Returns the shared `dflt` when the value is `undefined`. */
    | FillDefault
      /** Returns `_.defaults(value, defaults)` with the shared `defaults`. */
    | MergeDefaults
      /** `_.identity`. */
    | Identity
      /** A non-object entry: the callback returns nothing, so the array holds
          `undefined` at that position. */
    | Absent

  /** The outcome of decoration. `dflt` and `defaults` are the decorator's
      local variables, which every populator closure reads when it runs. */
  datatype Decorated =
    | Unchanged(fn: Value)
    | Wrapped(fn: Value, guidelines: Value, validators: seq<Validator>, populators: seq<Populator>,
              dflt: Value, defaults: Value)

  /** `guidelines || fn.$guidelines`. */
  function Guidelines(fn: Value, guidelines: Value): (r: Result<Value, Error>)
    ensures Truthy(guidelines) ==> r == Ok(guidelines)
    ensures !Truthy(guidelines) && fn.Fun? ==> r == Ok(Own(fn.props, "$guidelines"))
    ensures r.Err? <==> !Truthy(guidelines) && (fn.Undefined? || fn.Null?)
  {
    if Truthy(guidelines) then Ok(guidelines)
    else match Property(fn, "$guidelines")
      case None => Err(NoProperty("$guidelines"))
      case Some(g) => Ok(g)
  }

  /** The populator callback's choice for one entry (`type(def) === 'object'`
      is `def.Obj?`, by `Types.ObjectTag`). */
  function PopulatorFor(def: Value): (p: Populator)
    ensures p.Absent? <==> TypeOf(def) != "object"
    ensures p.FillDefault? <==> TypeOf(def) == "object" && Truthy(Own(def.fields, "default"))
    ensures p.MergeDefaults? <==>
      TypeOf(def) == "object" && !Truthy(Own(def.fields, "default")) && Truthy(Own(def.fields, "defaults"))
  {
    ObjectTag(def);
    if def.Obj? then
      if Truthy(Own(def.fields, "default")) then FillDefault
      else if Truthy(Own(def.fields, "defaults")) then MergeDefaults
      else Identity
    else Absent
  }

  /** What a variable the populator callback assigns for each object entry
      holds once the loop is over (`undefined` if it never ran). */
  function Shared(items: seq<Item>, name: string): Value
  {
    if |items| == 0 then Undefined
    else
      var last := items[|items| - 1].val;
      if last.Obj? then Own(last.fields, name) else Shared(items[..|items| - 1], name)
  }

  /** Every populator reads what the LAST object entry stored, whichever entry
      it was built for; with no object entry the variables stay `undefined`. */
  lemma {:induction false} SharedIsLastObjectEntry(items: seq<Item>, name: string, k: nat)
    requires k < |items| && items[k].val.Obj?
    requires forall j :: k < j < |items| ==> !items[j].val.Obj?
    ensures Shared(items, name) == Own(items[k].val.fields, name)
  {
    if k < |items| - 1 {
      var init := items[..|items| - 1];
      assert init[k] == items[k];
      SharedIsLastObjectEntry(init, name, k);
    }
  }

  lemma {:induction false} SharedWithoutObjectEntry(items: seq<Item>, name: string)
    requires forall j :: 0 <= j < |items| ==> !items[j].val.Obj?
    ensures Shared(items, name) == Undefined
  {
    if |items| > 0 {
      SharedWithoutObjectEntry(items[..|items| - 1], name);
    }
  }

  /** `decorator(fn, guidelines)`, up to the wrapper it returns. */
  function Decorate(fn: Value, guidelines: Value): (r: Result<Decorated, Error>)
    ensures r.Ok? && r.value.Unchanged? ==> r.value.fn == fn
    ensures r.Ok? && r.value.Wrapped? ==>
      var w := r.value;
      && w.fn == fn
      && Guidelines(fn, guidelines) == Ok(w.guidelines)
      && |w.validators| == |w.populators| == |Items(w.guidelines)|
      && (forall i :: 0 <= i < |w.validators| ==>
            Compile(Items(w.guidelines)[i].val, Items(w.guidelines)[i].index) == Ok(w.validators[i]))
    ensures r.Err? ==> r.error == NoProperty("$guidelines") || r.error == NotCallable(Undefined)
  {
    match Guidelines(fn, guidelines)
    case Err(e) => Err(e)
    case Ok(g) =>
      if !Truthy(g) then Ok(Unchanged(fn))
      else
        var items := Items(g);
        match Sequence(CompileEntries(items))
        case Err(e) => Err(e)
        case Ok(vs) =>
          Ok(Wrapped(fn, g, vs, PopulatorsFor(items), Shared(items, "default"), Shared(items, "defaults")))
  }

  /** `_.map(guidelines, validatorMap)` before any exception is raised: each
      entry compiled with the index the iteration passes. */
  function CompileEntries(items: seq<Item>): (rs: seq<Result<Validator, Error>>)
    ensures |rs| == |items|
  {
    seq(|items|, i requires 0 <= i < |items| => Compile(items[i].val, items[i].index))
  }

  /** `_.map(guidelines, function (def) { ... })`. */
  function PopulatorsFor(items: seq<Item>): (ps: seq<Populator>)
    ensures |ps| == |items|
  {
    seq(|items|, i requires 0 <= i < |items| => PopulatorFor(items[i].val))
  }

  /** Decoration is opt-in: with no guideline list to find, `fn` comes back
      as it is; reading the list from `undefined` or `null` throws. */
  lemma DecorateFallsBack(fn: Value, guidelines: Value)
    ensures (Decorate(fn, guidelines) == Ok(Unchanged(fn))) <==>
      !Truthy(guidelines) && Property(fn, "$guidelines").Some? && !Truthy(Property(fn, "$guidelines").value)
    ensures (Decorate(fn, guidelines) == Err(NoProperty("$guidelines"))) <==>
      !Truthy(guidelines) && (fn.Undefined? || fn.Null?)
  {
  }

  /** For a guideline array, entry `i` of the validator array is
      `validatorMap(guidelines[i], i)`, entry `i` of the populator array is
      built from `guidelines[i]`, and decoration fails exactly when some entry
      fails to compile. */
  lemma DecorateAligned(fn: Value, entries: seq<Value>)
    ensures Decorate(fn, Arr(entries)).Ok? <==> forall i :: 0 <= i < |entries| ==> Compile(entries[i], Pos(i)).Ok?
    ensures Decorate(fn, Arr(entries)).Ok? ==>
      var w := Decorate(fn, Arr(entries)).value;
      && w.Wrapped?
      && |w.validators| == |entries| && |w.populators| == |entries|
      && (forall i :: 0 <= i < |entries| ==> Compile(entries[i], Pos(i)) == Ok(w.validators[i]))
      && (forall i :: 0 <= i < |entries| ==> w.populators[i] == PopulatorFor(entries[i]))
      && w.dflt == Shared(Items(Arr(entries)), "default")
      && w.defaults == Shared(Items(Arr(entries)), "defaults")
  {
    var items := Items(Arr(entries));
    assert forall i :: 0 <= i < |entries| ==> items[i] == Item(Pos(i), entries[i]);
    assert forall i :: 0 <= i < |entries| ==> CompileEntries(items)[i] == Compile(entries[i], Pos(i));
    assert forall i :: 0 <= i < |entries| ==> PopulatorsFor(items)[i] == PopulatorFor(entries[i]);
  }

  /** Running one populator on a value (the call-time use is not modelled). */
  function Populate(p: Populator, dflt: Value, defaults: Value, value: Value): (r: Result<Value, Error>)
    ensures r.Err? <==> p.Absent?
    ensures p.FillDefault? ==> r == Ok(if value.Undefined? then dflt else value)
    ensures p.Identity? ==> r == Ok(value)
    ensures p.MergeDefaults? && value.Obj? && DistinctKeys(OwnFields(defaults)) ==>
      r.value.Obj? &&
      forall k :: Own(r.value.fields, k) == (if Own(value.fields, k) != Undefined then Own(value.fields, k) else Own(OwnFields(defaults), k))
    ensures p.MergeDefaults? && value.Fun? && DistinctKeys(OwnFields(defaults)) ==>
      r.value.Fun? &&
      forall k :: Own(r.value.props, k) ==
        (if k in FunctionOwnKeys || Own(value.props, k) != Undefined then Own(value.props, k) else Own(OwnFields(defaults), k))
    ensures p.MergeDefaults? && value.Arr? && DistinctKeys(OwnFields(defaults)) ==>
      r.value.Arr? &&
      forall n: nat :: ElemAt(r.value.elems, n) ==
        (if ElemAt(value.elems, n) != Undefined then ElemAt(value.elems, n) else Own(OwnFields(defaults), NatToString(n)))
    ensures p.MergeDefaults? && !value.Obj? && !value.Fun? && !value.Arr? ==> r == Ok(value)
  {
    match p
    case FillDefault => Ok(if TypeOf(value) == "undefined" then dflt else value)
    case MergeDefaults =>
      if DistinctKeys(OwnFields(defaults)) then
        if value.Obj? then FillSpec(value.fields, OwnFields(defaults)); Ok(Defaults(value, defaults))
        else if value.Fun? then DefaultsFunction(value, defaults); Ok(Defaults(value, defaults))
        else if value.Arr? then DefaultsArray(value, defaults); Ok(Defaults(value, defaults))
        else Ok(Defaults(value, defaults))
      else Ok(Defaults(value, defaults))
    case Identity => Ok(value)
    case Absent => Err(NotCallable(Undefined))
  }

  /** An object entry with a truthy `default` gets a populator that returns the
      default in force (that of the last object entry) exactly for an
      `undefined` value, and the value itself otherwise. */
  lemma DefaultPopulator(fn: Value, entries: seq<Value>, i: nat, k: nat, value: Value)
    requires i < |entries| && entries[i].Obj? && Truthy(Own(entries[i].fields, "default"))
    requires i <= k < |entries| && entries[k].Obj?
    requires forall j :: k < j < |entries| ==> !entries[j].Obj?
    ensures Decorate(fn, Arr(entries)).Ok? ==>
      var w := Decorate(fn, Arr(entries)).value;
      && w.Wrapped? && i < |w.populators| && w.populators[i] == FillDefault
      && w.dflt == Own(entries[k].fields, "default")
      && Populate(w.populators[i], w.dflt, w.defaults, value) ==
           Ok(if value.Undefined? then Own(entries[k].fields, "default") else value)
  {
    if Decorate(fn, Arr(entries)).Ok? {
      var w := Decorate(fn, Arr(entries)).value;
      DecoratedPopulators(fn, entries, w);
      LastObjectEntry(entries, "default", k);
    }
  }

  /** An object entry with a truthy `defaults` and no truthy `default` gets a
      populator that fills the value's unset properties from the `defaults`
      in force (those of the last object entry) without overwriting any. */
  lemma DefaultsPopulator(fn: Value, entries: seq<Value>, i: nat, k: nat, value: Value, key: string)
    requires i < |entries| && entries[i].Obj?
    requires !Truthy(Own(entries[i].fields, "default")) && Truthy(Own(entries[i].fields, "defaults"))
    requires i <= k < |entries| && entries[k].Obj?
    requires forall j :: k < j < |entries| ==> !entries[j].Obj?
    requires value.Obj? && DistinctKeys(OwnFields(Own(entries[k].fields, "defaults")))
    ensures Decorate(fn, Arr(entries)).Ok? ==>
      var w := Decorate(fn, Arr(entries)).value;
      && w.Wrapped? && i < |w.populators| && w.populators[i] == MergeDefaults
      && w.defaults == Own(entries[k].fields, "defaults")
      && var r := Populate(w.populators[i], w.dflt, w.defaults, value);
         && r.Ok? && r.value.Obj?
         && Own(r.value.fields, key) ==
              if Own(value.fields, key) != Undefined then Own(value.fields, key) else Own(OwnFields(w.defaults), key)
  {
    if Decorate(fn, Arr(entries)).Ok? {
      var w := Decorate(fn, Arr(entries)).value;
      DecoratedPopulators(fn, entries, w);
      LastObjectEntry(entries, "defaults", k);
    }
  }

  /** The populator side of `DecorateAligned`, on its own. */
  lemma DecoratedPopulators(fn: Value, entries: seq<Value>, w: Decorated)
    requires Decorate(fn, Arr(entries)) == Ok(w)
    ensures w.Wrapped? && |w.populators| == |entries|
    ensures forall i :: 0 <= i < |entries| ==> w.populators[i] == PopulatorFor(entries[i])
    ensures w.dflt == Shared(Items(Arr(entries)), "default")
    ensures w.defaults == Shared(Items(Arr(entries)), "defaults")
  {
    DecorateAligned(fn, entries);
  }

  /** `SharedIsLastObjectEntry` for a guideline array. */
  lemma LastObjectEntry(entries: seq<Value>, name: string, k: nat)
    requires k < |entries| && entries[k].Obj?
    requires forall j :: k < j < |entries| ==> !entries[j].Obj?
    ensures Shared(Items(Arr(entries)), name) == Own(entries[k].fields, name)
  {
    var items := Items(Arr(entries));
    assert forall j :: 0 <= j < |entries| ==> items[j] == Item(Pos(j), entries[j]);
    SharedIsLastObjectEntry(items, name, k);
  }

  /** Any other object entry gets the identity; a non-object entry gets no
      populator at all, and calling that slot throws. */
  lemma OtherPopulators(def: Value, dflt: Value, defaults: Value, value: Value)
    ensures def.Obj? && !Truthy(Own(def.fields, "default")) && !Truthy(Own(def.fields, "defaults")) ==>
      Populate(PopulatorFor(def), dflt, defaults, value) == Ok(value)
    ensures !def.Obj? ==> Populate(PopulatorFor(def), dflt, defaults, value) == Err(NotCallable(Undefined))
  {
  }
}

=== FILE: lodash.dfy ===
/** The lodash utilities the guard relies on, given simple definitions over
    `Value` in the behaviour of lodash 2.x (the release line that still has
    `_.contains`): `_.isEmpty`, `_.isObject`, the iteration of `_.map`, and
    `_.defaults`. */
module Lodash {
  import opened Text
  import opened Values

  /** `_.isEmpty`: falsy values, numbers and booleans are empty; strings and
      arrays are empty when they have no elements; objects and functions when
      they have no own enumerable property. */
  predicate IsEmpty(v: Value)
  {
    match v
    case Str(s) => |s| == 0
    case Arr(es) => |es| == 0
    case Obj(fs) => |fs| == 0
    case Fun(_, _, _, ps) => |ps| == 0
    case _ => true
  }

  /** `_.isObject`: arrays, objects and functions. */
  predicate IsObject(v: Value)
  {
    v.Arr? || v.Obj? || v.Fun?
  }

  /** The second argument `_.map` passes to its callback: a position for
      array-like collections, a property name for objects. */
  datatype Index = Pos(pos: nat) | Key(name: string)

  datatype Item = Item(index: Index, val: Value)

  /** The (index, element) pairs `_.map(c, callback)` visits, in order.
      Anything with a numeric `length` (arrays, strings, functions) is walked
      by position; an object by its own properties; a primitive or a missing
      collection yields nothing. */
  function Items(c: Value): seq<Item>
  {
    match c
    case Arr(es) => seq(|es|, i requires 0 <= i < |es| => Item(Pos(i), es[i]))
    case Str(s) => seq(|s|, i requires 0 <= i < |s| => Item(Pos(i), Str([s[i]])))
    case Fun(_, arity, _, ps) => seq(arity, i requires 0 <= i < arity => Item(Pos(i), Own(ps, NatToString(i))))
    case Obj(fs) => seq(|fs|, i requires 0 <= i < |fs| => Item(Key(fs[i].key), fs[i].val))
    case _ => []
  }

  /** Iteration never visits anything deeper than the collection itself. */
  lemma ItemsHeight(c: Value)
    ensures forall i :: 0 <= i < |Items(c)| ==> Height(Items(c)[i].val) <= Height(c)
  {
    match c
    case Arr(es) =>
      forall i | 0 <= i < |es| ensures Height(es[i]) <= ElemsHeight(es) { ElemHeight(es, i); }
    case Fun(_, arity, _, ps) =>
      forall i: nat | i < arity ensures Height(Own(ps, NatToString(i))) <= FieldsHeight(ps) { OwnHeight(ps, NatToString(i)); }
    case Obj(fs) =>
      forall i | 0 <= i < |fs| ensures Height(fs[i].val) <= FieldsHeight(fs) { FieldHeight(fs, i); }
    case _ =>
  }

  /** The own enumerable properties `_.defaults` copies from a source: an
      array's are its indices; a string or other primitive contributes none. */
  function OwnFields(v: Value): seq<Field>
  {
    match v
    case Obj(fs) => fs
    case Fun(_, _, _, ps) => ps
    case Arr(es) => seq(|es|, i requires 0 <= i < |es| => Field(NatToString(i), es[i]))
    case _ => []
  }

  /** Assigning `k`: replaces the field in place, or appends a new one. */
  function Put(fs: seq<Field>, k: string, v: Value): (r: seq<Field>)
    ensures forall j :: Own(r, j) == if j == k then v else Own(fs, j)
    ensures forall j :: HasKey(r, j) <==> j == k || HasKey(fs, j)
  {
    if |fs| == 0 then
      assert forall j :: Own([Field(k, v)], j) == if j == k then v else Undefined by {
        forall j ensures Own([Field(k, v)], j) == if j == k then v else Undefined {
          OwnCons(Field(k, v), [], j);
        }
      }
      [Field(k, v)]
    else if fs[0].key == k then
      var r := [Field(k, v)] + fs[1..];
      forall j ensures Own(r, j) == (if j == k then v else Own(fs, j)) && (HasKey(r, j) <==> j == k || HasKey(fs, j)) {
        OwnCons(Field(k, v), fs[1..], j);
        OwnCons(fs[0], fs[1..], j);
        assert fs == [fs[0]] + fs[1..];
      }
      r
    else
      var r := [fs[0]] + Put(fs[1..], k, v);
      forall j ensures Own(r, j) == (if j == k then v else Own(fs, j)) && (HasKey(r, j) <==> j == k || HasKey(fs, j)) {
        OwnCons(fs[0], Put(fs[1..], k, v), j);
        OwnCons(fs[0], fs[1..], j);
        assert fs == [fs[0]] + fs[1..];
      }
      r
  }

  /** Copies each source field whose key reads as `undefined` in `fs`. */
  function Fill(fs: seq<Field>, src: seq<Field>): seq<Field>
    decreases |src|
  {
    if |src| == 0 then fs
    else
      var f := src[0];
      Fill(if Own(fs, f.key) == Undefined then Put(fs, f.key, f.val) else fs, src[1..])
  }

  /** The own properties every function carries (`fn.length`, `fn.name`,
      `fn.prototype`). They never read as `undefined`, so `_.defaults` never
      fills them. */
  const FunctionOwnKeys: set<string> := {"length", "name", "prototype"}

  /** The source fields whose keys are not in `ks`. */
  function Without(src: seq<Field>, ks: set<string>): (r: seq<Field>)
    ensures forall k :: Own(r, k) == if k in ks then Undefined else Own(src, k)
    ensures forall i :: 0 <= i < |r| ==> r[i].key !in ks && HasKey(src, r[i].key)
    ensures DistinctKeys(src) ==> DistinctKeys(r)
  {
    if |src| == 0 then []
    else
      var f := src[0];
      var rest := Without(src[1..], ks);
      assert src == [f] + src[1..];
      forall k ensures Own(src, k) == (if f.key == k then f.val else Own(src[1..], k))
        && (HasKey(src, k) <==> f.key == k || HasKey(src[1..], k)) {
        OwnCons(f, src[1..], k);
      }
      if f.key in ks then rest
      else
        var r := [f] + rest;
        forall k ensures Own(r, k) == (if k in ks then Undefined else Own(src, k)) {
          OwnCons(f, rest, k);
        }
        assert forall i :: 1 <= i < |r| ==> r[i] == rest[i - 1];
        assert DistinctKeys(src) ==> DistinctKeys(r) by {
          if DistinctKeys(src) {
            assert !HasKey(src[1..], f.key) by {
              forall i | 0 <= i < |src[1..]| ensures src[1..][i].key != f.key {
                assert src[1..][i] == src[i + 1];
              }
            }
            assert DistinctKeys(src[1..]) by {
              forall i, j | 0 <= i < j < |src[1..]| ensures src[1..][i].key != src[1..][j].key {
                assert src[1..][i] == src[i + 1] && src[1..][j] == src[j + 1];
              }
            }
          }
        }
        r
  }

  /** `arr[n]`: the element, or `undefined` past the end (or at a hole). */
  function ElemAt(es: seq<Value>, n: nat): Value
  {
    if n < |es| then es[n] else Undefined
  }

  /** A key that names an array position: the numeral of a natural number,
      without leading zeros. */
  predicate IsIndexKey(k: string)
  {
    |k| > 0 && IsDigits(k) && NatToString(DigitsValue(k)) == k
  }

  /** The index keys are exactly the numerals `String(n)`. */
  lemma IndexKey(k: string, n: nat)
    ensures (IsIndexKey(k) && DigitsValue(k) == n) <==> k == NatToString(n)
  {
    DigitsRoundTrip(n);
  }

  /** `arr[n] = v`: stores at `n`, growing the array past its end with holes,
      which read as `undefined`. */
  function PutAt(es: seq<Value>, n: nat, v: Value): (r: seq<Value>)
    ensures |r| == if n < |es| then |es| else n + 1
    ensures forall m: nat :: ElemAt(r, m) == if m == n then v else ElemAt(es, m)
  {
    if n < |es| then es[n := v] else es + seq(n - |es|, _ => Undefined) + [v]
  }

  /** Copies each source field whose key is an index into the array, where the
      position reads as `undefined`. Other keys would become named properties
      of the array, which the model's arrays do not hold. */
  function FillElems(es: seq<Value>, src: seq<Field>): (r: seq<Value>)
    ensures |r| >= |es|
    decreases |src|
  {
    if |src| == 0 then es
    else
      var f := src[0];
      FillElems(if IsIndexKey(f.key) && ElemAt(es, DigitsValue(f.key)) == Undefined
                then PutAt(es, DigitsValue(f.key), f.val) else es, src[1..])
  }

  /** `_.defaults(target, source)`: fills the target's missing (or `undefined`)
      properties from the source, never overwriting one that is set. A falsy
      target is returned as is; assignments to a primitive are lost. */
  function Defaults(target: Value, source: Value): Value
  {
    match target
    case Obj(fs) => Obj(Fill(fs, OwnFields(source)))
    case Fun(id, arity, src, ps) => Fun(id, arity, src, Fill(ps, Without(OwnFields(source), FunctionOwnKeys)))
    case Arr(es) => Arr(FillElems(es, OwnFields(source)))
    case _ => target
  }

  /** Filling keeps every property that is set and takes every other one from
      the source; the result has exactly the keys of both. */
  lemma {:induction false} FillSpec(fs: seq<Field>, src: seq<Field>)
    requires DistinctKeys(src)
    ensures forall k :: Own(Fill(fs, src), k) == if Own(fs, k) != Undefined then Own(fs, k) else Own(src, k)
    ensures forall k :: HasKey(Fill(fs, src), k) <==> HasKey(fs, k) || HasKey(src, k)
    decreases |src|
  {
    if |src| > 0 {
      var f := src[0];
      var rest := src[1..];
      var fs' := if Own(fs, f.key) == Undefined then Put(fs, f.key, f.val) else fs;
      assert src == [f] + rest;
      assert DistinctKeys(rest) by {
        forall i, j | 0 <= i < j < |rest| ensures rest[i].key != rest[j].key {
          assert rest[i] == src[i + 1] && rest[j] == src[j + 1];
        }
      }
      FillSpec(fs', rest);
      assert !HasKey(rest, f.key) by {
        forall i | 0 <= i < |rest| ensures rest[i].key != f.key {
          assert rest[i] == src[i + 1];
        }
      }
      forall k ensures Own(Fill(fs, src), k) == (if Own(fs, k) != Undefined then Own(fs, k) else Own(src, k))
        && (HasKey(Fill(fs, src), k) <==> HasKey(fs, k) || HasKey(src, k)) {
        OwnCons(f, rest, k);
        if Own(fs, k) == Undefined && HasKey(fs, k) {
          assert HasKey(fs', k);
        }
      }
    }
  }

  /** `_.defaults` on an object: set properties survive, unset ones come from
      the source, and no key is lost or invented. */
  lemma DefaultsFillsMissing(target: Value, source: Value, k: string)
    requires target.Obj?
    requires DistinctKeys(OwnFields(source))
    ensures Defaults(target, source).Obj?
    ensures var r := Defaults(target, source).fields;
      && Own(r, k) == (if Own(target.fields, k) != Undefined then Own(target.fields, k) else Own(OwnFields(source), k))
      && (HasKey(r, k) <==> HasKey(target.fields, k) || HasKey(OwnFields(source), k))
  {
    FillSpec(target.fields, OwnFields(source));
  }

  /** Filling an array keeps every position that is set and takes every other
      one from the source's numeral key for it. */
  lemma {:induction false} FillElemsSpec(es: seq<Value>, src: seq<Field>)
    requires DistinctKeys(src)
    ensures forall n: nat ::
              ElemAt(FillElems(es, src), n) ==
              if ElemAt(es, n) != Undefined then ElemAt(es, n) else Own(src, NatToString(n))
    decreases |src|
  {
    if |src| > 0 {
      var f := src[0];
      var rest := src[1..];
      var es' := if IsIndexKey(f.key) && ElemAt(es, DigitsValue(f.key)) == Undefined
                 then PutAt(es, DigitsValue(f.key), f.val) else es;
      assert src == [f] + rest;
      assert DistinctKeys(rest) by {
        forall i, j | 0 <= i < j < |rest| ensures rest[i].key != rest[j].key {
          assert rest[i] == src[i + 1] && rest[j] == src[j + 1];
        }
      }
      FillElemsSpec(es', rest);
      assert !HasKey(rest, f.key) by {
        forall i | 0 <= i < |rest| ensures rest[i].key != f.key {
          assert rest[i] == src[i + 1];
        }
      }
      forall n: nat ensures ElemAt(FillElems(es, src), n) ==
        (if ElemAt(es, n) != Undefined then ElemAt(es, n) else Own(src, NatToString(n))) {
        OwnCons(f, rest, NatToString(n));
        IndexKey(f.key, n);
      }
    }
  }

  /** `_.defaults` on a function: the properties every function has stay as
      they are, other set properties survive, and unset ones come from the
      source. */
  lemma DefaultsFunction(target: Value, source: Value)
    requires target.Fun?
    requires DistinctKeys(OwnFields(source))
    ensures var r := Defaults(target, source);
      && r.Fun? && r.id == target.id && r.arity == target.arity && r.source == target.source
      && forall k :: Own(r.props, k) ==
           if k in FunctionOwnKeys || Own(target.props, k) != Undefined then Own(target.props, k)
           else Own(OwnFields(source), k)
  {
    FillSpec(target.props, Without(OwnFields(source), FunctionOwnKeys));
  }

  /** `_.defaults` on an array: set positions survive, and a position that
      reads as `undefined` (past the end included) takes the source's value
      under its numeral key. */
  lemma DefaultsArray(target: Value, source: Value)
    requires target.Arr?
    requires DistinctKeys(OwnFields(source))
    ensures var r := Defaults(target, source);
      && r.Arr? && |r.elems| >= |target.elems|
      && forall n: nat :: ElemAt(r.elems, n) ==
           if ElemAt(target.elems, n) != Undefined then ElemAt(target.elems, n)
           else Own(OwnFields(source), NatToString(n))
  {
    FillElemsSpec(target.elems, OwnFields(source));
  }

  /** Applying the same defaults twice reads the same as applying them once. */
  lemma DefaultsIdempotent(target: Value, source: Value, k: string)
    requires target.Obj?
    requires DistinctKeys(OwnFields(source))
    ensures Own(Defaults(Defaults(target, source), source).fields, k) == Own(Defaults(target, source).fields, k)
  {
    var src := OwnFields(source);
    FillSpec(target.fields, src);
    FillSpec(Fill(target.fields, src), src);
  }
}

=== FILE: scenarios.dfy ===
/** Concrete decorations, worked through the model: what `decorator` builds
    for a few small guideline lists, and what the compiled validators say. */
module Scenarios {
  import opened Wrappers
  import opened Text
  import opened Values
  import opened Lodash
  import opened Validators
  import opened Decorator

  /** `function (a) { ... }` with no own properties. */
  const Target: Value := Fun(0, 1, "function (a) {}", [])

  /** Without guidelines, neither given nor attached, the function comes back. */
  lemma NoGuidelinesIsIdentity()
    ensures Decorate(Target, Undefined) == Ok(Unchanged(Target))
  {
  }

  /** `['string']`: one exact-tag validator at position 0 and no populator. */
  lemma SingleStringGuideline()
    ensures Decorate(Target, Arr([Str("string")])) ==
      Ok(Wrapped(Target, Arr([Str("string")]), [TagIs("string", Pos(0))], [Absent], Undefined, Undefined))
  {
    DecorateAligned(Target, [Str("string")]);
    assert Compile(Str("string"), Pos(0)) == Ok(TagIs("string", Pos(0)));
    var items := Items(Arr([Str("string")]));
    assert items == [Item(Pos(0), Str("string"))];
    SharedWithoutObjectEntry(items, "default");
    SharedWithoutObjectEntry(items, "defaults");
    var w := Decorate(Target, Arr([Str("string")])).value;
    assert |w.validators| == 1 && w.validators[0] == TagIs("string", Pos(0));
    assert w.validators == [TagIs("string", Pos(0))];
    assert |w.populators| == 1 && w.populators[0] == Absent;
    assert w.populators == [Absent];
  }

  /** That validator accepts "hello" and rejects 42 with the `MESSAGE` text. */
  lemma StringValidatorMessage(raises: (Value, Value) -> bool)
    ensures Check(TagIs("string", Pos(0)), Str("hello"), raises) == Ok(())
    ensures Check(TagIs("string", Pos(0)), Num(42), raises).Err?
    ensures Message(Check(TagIs("string", Pos(0)), Num(42), raises).error) ==
      "Incompatible type for parameter 0: Expected [string]; got [number]"
  {
    StringEntry("string", Pos(0), Num(42), raises);
    assert FormatIndex(Pos(0)) == "0";
    var m := Message(Check(TagIs("string", Pos(0)), Num(42), raises).error);
    assert m == "Incompatible type for parameter " + "0" + ": Expected [" + "string" + "]; got [" + "number" + "]";
    StringMismatchText();
  }

  /** `[['string', 'number']]`: "x" and 5 pass, `true` is rejected with the
      tags joined by ", ". */
  lemma UnionGuideline(raises: (Value, Value) -> bool)
    ensures Compile(Arr([Str("string"), Str("number")]), Pos(0)) == Ok(TagIn([Str("string"), Str("number")], Pos(0)))
    ensures Check(TagIn([Str("string"), Str("number")], Pos(0)), Str("x"), raises) == Ok(())
    ensures Check(TagIn([Str("string"), Str("number")], Pos(0)), Num(5), raises) == Ok(())
    ensures Check(TagIn([Str("string"), Str("number")], Pos(0)), Bool(true), raises).Err?
    ensures Message(Check(TagIn([Str("string"), Str("number")], Pos(0)), Bool(true), raises).error) ==
      "Incompatible type for parameter 0: Expected [string, number]; got [boolean]"
  {
    var tags := [Str("string"), Str("number")];
    ArrayEntry(tags, Pos(0), Bool(true), raises);
    UnionMismatch();
  }

  /** The mismatch the union validator raises for `true`, as text. */
  lemma UnionMismatch()
    ensures Message(Mismatch(Pos(0), ExpectedList([Str("string"), Str("number")]), "boolean")) ==
      "Incompatible type for parameter 0: Expected [string, number]; got [boolean]"
  {
    var tags := [Str("string"), Str("number")];
    assert tags[1..] == [Str("number")];
    assert ExpectedList(tags) == "string" + ", " + "number";
    assert FormatIndex(Pos(0)) == "0";
    UnionMismatchText();
  }

  /** `[{types: {name: 'string'}, defaults: {name: 'anonymous'}}]`: a shape
      keyed by property name makes decoration itself throw. */
  lemma ShapeGuidelineThrows()
    ensures Decorate(Target, Arr([Obj([Field("types", Obj([Field("name", Str("string"))])),
                                       Field("defaults", Obj([Field("name", Str("anonymous"))]))])]))
      == Err(NotCallable(Undefined))
  {
    var entry := Obj([Field("types", Obj([Field("name", Str("string"))])),
                      Field("defaults", Obj([Field("name", Str("anonymous"))]))]);
    assert Own(entry.fields, "types") == Obj([Field("name", Str("string"))]);
    ShapeMapFails(entry, Pos(0));
    DecorateAligned(Target, [entry]);
  }

  /** `[{default: 1}]`: without `types` the validator accepts everything, and
      the populator turns an omitted (`undefined`) argument into 1. */
  lemma DefaultGuideline(raises: (Value, Value) -> bool)
    ensures var w := Decorate(Target, Arr([Obj([Field("default", Num(1))])])).value;
      && w.Wrapped?
      && w.validators == [Each([])]
      && Populate(w.populators[0], w.dflt, w.defaults, Undefined) == Ok(Num(1))
      && Populate(w.populators[0], w.dflt, w.defaults, Num(7)) == Ok(Num(7))
  {
    var entry := Obj([Field("default", Num(1))]);
    assert !HasKey(entry.fields, "types");
    AbsentTypesAcceptsAll(entry, Pos(0), Undefined, raises);
    DecorateAligned(Target, [entry]);
    LastObjectEntry([entry], "default", 0);
  }

  /** `[function (v) {}]`: a predicate without own properties is empty, so its
      slot holds `undefined` and every call of the guard throws there. */
  lemma PlainPredicateGuideline(value: Value, raises: (Value, Value) -> bool)
    ensures var w := Decorate(Target, Arr([Fun(1, 1, "function (v) {}", [])])).value;
      && w.Wrapped?
      && w.validators == [Missing]
      && Check(w.validators[0], value, raises) == Err(NotCallable(Undefined))
  {
    var pred := Fun(1, 1, "function (v) {}", []);
    EmptyEntry(pred, Pos(0), value, raises);
    DecorateAligned(Target, [pred]);
  }

  /** `[{types: [5]}]`: the number 5 is an empty entry, so the combined
      validator calls `undefined` and rejects every value. */
  lemma EmptyTypeElementGuideline(value: Value, raises: (Value, Value) -> bool)
    ensures var w := Decorate(Target, Arr([Obj([Field("types", Arr([Num(5)]))])])).value;
      && w.Wrapped?
      && w.validators == [Each([Missing])]
      && Check(w.validators[0], value, raises) == Err(NotCallable(Undefined))
  {
    var entry := Obj([Field("types", Arr([Num(5)]))]);
    assert Own(entry.fields, "types") == Arr([Num(5)]);
    SequenceTypesEntry(entry, Pos(0), [Num(5)]);
    EmptyEntry(Num(5), Pos(0), value, raises);
    DecorateAligned(Target, [entry]);
    var v := Compile(entry, Pos(0)).value;
    assert v.Each? && |v.parts| == 1 && v.parts[0] == Missing;
    assert v == Each([Missing]);
    var w := Decorate(Target, Arr([entry])).value;
    assert |w.validators| == 1 && w.validators[0] == v;
    var rs := [Check(Missing, value, raises)];
    assert Sequence(rs) == Err(NotCallable(Undefined));
  }

  /** The message pieces for this scenario, spelled out as one text. */
  lemma StringMismatchText()
    ensures "Incompatible type for parameter " + "0" + ": Expected [" + "string" + "]; got [" + "number" + "]"
      == "Incompatible type for parameter 0: Expected [string]; got [number]"
  {
  }

  /** The message pieces for this scenario, spelled out as one text. */
  lemma UnionMismatchText()
    ensures "Incompatible type for parameter " + "0" + ": Expected [" + "string" + ", " + "number" + "]; got [" + "boolean" + "]"
      == "Incompatible type for parameter 0: Expected [string, number]; got [boolean]"
  {
  }
}

=== FILE: text.dfy ===
/** Decimal rendering and parsing of numbers, and `Array.prototype.join`,
    the pieces of JavaScript string conversion the error messages need. */
module Text {

  /** The decimal digit character for `d`. */
  function Digit(d: nat): (c: char)
    requires d < 10
    ensures '0' <= c <= '9'
    ensures c as int - '0' as int == d
  {
    (('0' as int) + d) as char
  }

  predicate IsDigits(s: string)
  {
    forall i :: 0 <= i < |s| ==> '0' <= s[i] <= '9'
  }

  /** `String(n)` for a natural number: its shortest decimal numeral. */
  function NatToString(n: nat): (s: string)
    ensures |s| > 0 && IsDigits(s)
    ensures (s[0] == '0') <==> (n == 0)
    ensures n == 0 ==> s == "0"
  {
    if n < 10 then [Digit(n)] else NatToString(n / 10) + [Digit(n % 10)]
  }

  /** `String(n)` for any integer (the model's numbers are integers). */
  function IntToString(n: int): string
  {
    if n < 0 then "-" + NatToString(-n) else NatToString(n)
  }

  /** The value of a decimal numeral, as `Number(s)` reads a string of digits. */
  function DigitsValue(s: string): nat
    requires IsDigits(s)
  {
    if |s| == 0 then 0 else 10 * DigitsValue(s[..|s| - 1]) + (s[|s| - 1] as int - '0' as int)
  }

  /** Reading back a rendered natural number gives the number. */
  lemma {:induction false} DigitsRoundTrip(n: nat)
    ensures DigitsValue(NatToString(n)) == n
  {
    if n >= 10 {
      var s := NatToString(n / 10);
      DigitsRoundTrip(n / 10);
      assert NatToString(n) == s + [Digit(n % 10)];
      assert (s + [Digit(n % 10)])[..|s|] == s;
    }
  }

  /** Distinct natural numbers render as distinct numerals. */
  lemma NatToStringInjective(m: nat, n: nat)
    requires NatToString(m) == NatToString(n)
    ensures m == n
  {
    DigitsRoundTrip(m);
    DigitsRoundTrip(n);
  }

  /** `parts.join(sep)`. */
  function Join(parts: seq<string>, sep: string): string
  {
    if |parts| == 0 then ""
    else if |parts| == 1 then parts[0]
    else parts[0] + sep + Join(parts[1..], sep)
  }
}

=== FILE: typemap.dfy ===
/** `typeMap(object)`: an ordered, first-match-wins dispatch of a value to one
    of the handler members of a table. The table is given by the names of its
    members that are functions; a member that is not a function is skipped by
    every test, exactly as if it were absent. */
module TypeMap {
  import opened Wrappers
  import opened Values
  import opened Lodash
  import opened Types

  /** The five ways a branch can be chosen, in resolution order. */
  datatype Rule = EmptyRule | ContainerRule | PrimitiveRule | ExactRule | DefaultRule

  const Priority: seq<Rule> := [EmptyRule, ContainerRule, PrimitiveRule, ExactRule, DefaultRule]

  /** The position of a rule in `Priority`. */
  function Rank(r: Rule): (k: nat)
    ensures k < |Priority| && Priority[k] == r
  {
    match r
    case EmptyRule => 0
    case ContainerRule => 1
    case PrimitiveRule => 2
    case ExactRule => 3
    case DefaultRule => 4
  }

  const PrimitiveTags: Value := Arr([Str("string"), Str("number"), Str("boolean")])

  /** The table member a rule invokes for `value`. */
  function HandlerKey(r: Rule, value: Value): string
  {
    match r
    case EmptyRule => "empty"
    case ContainerRule => "container"
    case PrimitiveRule => "primitive"
    case ExactRule => TypeOf(value)
    case DefaultRule => "default"
  }

  /** The condition on the value under which a rule may fire. */
  predicate Guard(r: Rule, value: Value)
  {
    match r
    case EmptyRule => IsEmpty(value)
    case ContainerRule => IsObject(value)
    case PrimitiveRule => IsType(value, PrimitiveTags)
    case ExactRule => true
    case DefaultRule => true
  }

  /** A rule applies when its handler is present and its guard holds. */
  predicate Applies(handlers: set<string>, r: Rule, value: Value)
  {
    HandlerKey(r, value) in handlers && Guard(r, value)
  }

  /** What the dispatcher does with a call `(value, ...extra)`: invoke a
      handler with the arguments it receives, or hand the value back. */
  datatype Call<A> =
    | Invoke(rule: Rule, key: string, value: Value, extra: seq<A>)
    | PassThrough(value: Value)

  /** The function `typeMap(object)` returns, applied to `(value, ...extra)`. */
  function Resolve<A>(handlers: set<string>, value: Value, extra: seq<A>): (c: Call<A>)
    ensures c.value == value
    ensures c.Invoke? ==> c.key == HandlerKey(c.rule, value) && Applies(handlers, c.rule, value)
    ensures c.Invoke? ==> forall q :: Rank(q) < Rank(c.rule) ==> !Applies(handlers, q, value)
    ensures c.PassThrough? ==> forall q :: !Applies(handlers, q, value)
    ensures c.Invoke? && c.rule != DefaultRule ==> c.extra == extra
    ensures c.Invoke? && c.rule == DefaultRule ==> c.extra == []
  {
    if "empty" in handlers && IsEmpty(value) then Invoke(EmptyRule, "empty", value, extra)
    else if "container" in handlers && IsObject(value) then Invoke(ContainerRule, "container", value, extra)
    else if "primitive" in handlers && IsType(value, PrimitiveTags) then Invoke(PrimitiveRule, "primitive", value, extra)
    else if TypeOf(value) in handlers then Invoke(ExactRule, TypeOf(value), value, extra)
    else if "default" in handlers then Invoke(DefaultRule, "default", value, [])
    else PassThrough(value)
  }

  /** Reference reading of the order: the first rule of `rules` that applies. */
  function FirstApplicable(handlers: set<string>, value: Value, rules: seq<Rule>): (r: Option<Rule>)
    ensures r.Some? ==> Applies(handlers, r.value, value)
    ensures r.Some? ==> exists k :: (0 <= k < |rules| && rules[k] == r.value
      && forall j :: 0 <= j < k ==> !Applies(handlers, rules[j], value))
    ensures r.None? <==> forall i :: 0 <= i < |rules| ==> !Applies(handlers, rules[i], value)
  {
    if |rules| == 0 then None
    else if Applies(handlers, rules[0], value) then Some(rules[0])
    else
      assert forall i :: 1 <= i < |rules| ==> rules[i] == rules[1..][i - 1];
      FirstApplicable(handlers, value, rules[1..])
  }

  /** The dispatcher is exactly "the first applicable rule of the priority
      list, or pass-through", and only `default` loses the extra arguments. */
  lemma ResolveIsFirstMatch<A>(handlers: set<string>, value: Value, extra: seq<A>)
    ensures Resolve(handlers, value, extra) ==
      match FirstApplicable(handlers, value, Priority)
      case None => PassThrough(value)
      case Some(r) => Invoke(r, HandlerKey(r, value), value, if r == DefaultRule then [] else extra)
  {
    var c := Resolve(handlers, value, extra);
    var f := FirstApplicable(handlers, value, Priority);
    if c.PassThrough? {
      assert f.None?;
    } else {
      assert Priority[Rank(c.rule)] == c.rule;
      assert f.Some?;
      var k :| 0 <= k < |Priority| && Priority[k] == f.value
        && forall j :: 0 <= j < k ==> !Applies(handlers, Priority[j], value);
      assert Rank(f.value) == k;
      assert f.value == c.rule;
    }
  }
}

=== FILE: types.dfy ===
/** The type-tag layer: classifying a value into a tag (`type`), testing a
    value against one tag or a list of tags (`isType`), and `isFunction`. */
module Types {
  import opened Values

  /** The tags the classifier produces for the values of this model. */
  const Tags: set<string> := {"undefined", "null", "boolean", "number", "string", "array", "object", "function"}

  /** The `type-of` classifier: exactly one tag per value. */
  function TypeOf(v: Value): (t: string)
    ensures t in Tags
  {
    match v
    case Undefined => "undefined"
    case Null => "null"
    case Bool(_) => "boolean"
    case Num(_) => "number"
    case Str(_) => "string"
    case Arr(_) => "array"
    case Obj(_) => "object"
    case Fun(_, _, _, _) => "function"
  }

  /** The `'object'` tag is exactly the plain objects. */
  lemma ObjectTag(v: Value)
    ensures TypeOf(v) == "object" <==> v.Obj?
  {
  }

  /** `type(...)`: with one argument (or none, which reads `undefined`) the tag
      of that value; with more, an array of the tags of every argument. */
  function Type(args: seq<Value>): (r: Value)
    ensures |args| <= 1 ==> r.Str? && r.s in Tags
    ensures |args| > 1 ==> r.Arr? && |r.elems| == |args|
    ensures |args| == 1 ==> r == Str(TypeOf(args[0]))
    ensures |args| == 0 ==> r == Str("undefined")
  {
    if |args| > 1 then Arr(seq(|args|, i requires 0 <= i < |args| => Str(TypeOf(args[i]))))
    else if |args| == 1 then Str(TypeOf(args[0]))
    else Str(TypeOf(Undefined))
  }

  /** Classifying several values at once agrees with classifying each alone. */
  lemma TypeManyIsEach(args: seq<Value>, i: nat)
    requires |args| > 1 && i < |args|
    ensures Type(args).elems[i] == Type([args[i]])
  {
  }

  /** `isType(value, types)`: a non-array `types` is wrapped into a one-element
      list, and the value's tag must be (strictly) equal to one of its members. */
  function IsType(value: Value, types: Value): (r: bool)
    ensures types.Arr? ==> (r <==> Str(TypeOf(value)) in types.elems)
    ensures !types.Arr? ==> (r <==> types == Str(TypeOf(value)))
  {
    var list := if Type([types]) != Str("array") then [types] else types.elems;
    Str(TypeOf(value)) in list
  }

  /** A single tag behaves as the one-element list holding it. */
  lemma IsTypeSingleTag(value: Value, t: string)
    ensures IsType(value, Str(t)) <==> TypeOf(value) == t
    ensures IsType(value, Str(t)) == IsType(value, Arr([Str(t)]))
  {
  }

  /** `isFunction(value)`. */
  function IsFunction(value: Value): (r: bool)
    ensures r <==> value.Fun?
  {
    Type([value]) == Str("function")
  }
}

=== FILE: validators.dfy ===
/** The validator compiler: the `validators` table and
    `validatorMap = typeMap(validators)`, which turn one guideline entry into a
    validator, and the behaviour of the compiled validators when called.
    Validators are data (`Validator`) run by an interpreter (`Check`). */
module Validators {
  import opened Wrappers
  import opened Text
  import opened Values
  import opened Lodash
  import opened Types
  import opened TypeMap

  /** The exceptions of the guard, as values. */
  datatype Error =
      /** The assertion of a tag check failed at parameter `index`. */
    | Mismatch(index: Index, expected: string, actual: string)
      /** A function guideline threw when called with `arg`. */
    | Raised(validator: Value, arg: Value)
      /** TypeError: `callee` was called but is not a function. */
    | NotCallable(callee: Value)
      /** TypeError: property `name` was read from `undefined` or `null`. */
    | NoProperty(name: string)

  /** `%d` of an index: a position prints as itself, a property name as what
      `Number()` makes of it. */
  function FormatIndex(i: Index): (r: string)
    ensures i.Pos? ==> IsDigits(r) && DigitsValue(r) == i.pos
    ensures i.Key? && IsDigits(i.name) ==> IsDigits(r) && DigitsValue(r) == DigitsValue(i.name)
    ensures i.Key? && !IsDigits(i.name) ==> r == "NaN"
    ensures |r| > 0 && r[0] != ':'
  {
    match i
    case Pos(n) => DigitsRoundTrip(n); NatToString(n)
    case Key(k) =>
      if k == "" then "0"
      else if IsDigits(k) then DigitsRoundTrip(DigitsValue(k)); NatToString(DigitsValue(k))
      else "NaN"
  }

  /** The fixed text of `MESSAGE` before the parameter number. */
  const MessagePrefix: string := "Incompatible type for parameter "

  /** The text of a mismatch, after the `MESSAGE` format string. */
  function Message(e: Error): (m: string)
    requires e.Mismatch?
    ensures |MessagePrefix| < |m| && m[..|MessagePrefix|] == MessagePrefix
    ensures |e.actual| + 1 <= |m| && m[|m| - |e.actual| - 1..] == e.actual + "]"
  {
    var m := MessagePrefix + FormatIndex(e.index) + ": Expected [" + e.expected + "]; got [" + e.actual + "]";
    assert m[..|MessagePrefix|] == MessagePrefix;
    assert m[|m| - |e.actual| - 1..] == e.actual + "]";
    m
  }

  /** The parameter number can be read back from a message: after the prefix
      comes a run of digits, ended by ':', whose value is the position. */
  lemma MessageReadsBack(n: nat, expected: string, actual: string)
    ensures var m := Message(Mismatch(Pos(n), expected, actual));
      var p := |MessagePrefix|;
      var d := |FormatIndex(Pos(n))|;
      0 < d && p + d < |m| && IsDigits(m[p..p + d]) && m[p + d] == ':' && DigitsValue(m[p..p + d]) == n
  {
    var m := Message(Mismatch(Pos(n), expected, actual));
    var p := |MessagePrefix|;
    var f := FormatIndex(Pos(n));
    var d := |f|;
    assert m == MessagePrefix + f + (": Expected [" + expected + "]; got [" + actual + "]");
    assert m[p..p + d] == f;
    assert m[p + d] == ':';
  }

  /** `typespec.join(', ')`, the expected part of an array entry's message:
      each tag as `join` renders it, separated by ", ". */
  function ExpectedList(tags: seq<Value>): (r: string)
    ensures |tags| == 0 ==> r == ""
    ensures |tags| == 1 ==> r == JoinElement(tags[0])
    ensures |tags| > 1 ==> r == JoinElement(tags[0]) + ", " + ExpectedList(tags[1..])
  {
    var parts := seq(|tags|, i requires 0 <= i < |tags| => JoinElement(tags[i]));
    assert |tags| > 1 ==>
      parts[1..] == seq(|tags| - 1, i requires 0 <= i < |tags| - 1 => JoinElement(tags[1..][i]));
    Join(parts, ", ")
  }

  /** A compiled validator. */
  datatype Validator =
      /** What an empty entry leaves in its slot: the compiler chosen for it is
          `noop`, and `typeMap` hands back that call's result, `undefined`.
          Calling the slot throws a TypeError. */
    | Missing
      /** From a string entry: the value's tag must be `tag`. */
    | TagIs(tag: string, index: Index)
      /** From an array entry: the value's tag must be one of `tags`. */
    | TagIn(tags: seq<Value>, index: Index)
      /** A function entry used as its own validator. */
    | Custom(fn: Value)
      /** From an object entry: runs every part in order. */
    | Each(parts: seq<Validator>)

  /** Which values a validator lets through, stated with `isType`; what a
      function guideline does is the caller-supplied oracle `raises`. */
  predicate Accepts(v: Validator, value: Value, raises: (Value, Value) -> bool)
  {
    match v
    case Missing => false
    case TagIs(t, _) => IsType(value, Str(t))
    case TagIn(ts, _) => IsType(value, Arr(ts))
    case Custom(f) => !raises(f, value)
    case Each(ps) => forall i :: 0 <= i < |ps| ==> Accepts(ps[i], value, raises)
  }

  /** Calling a compiled validator on `value`: nothing, or the exception. */
  function Check(v: Validator, value: Value, raises: (Value, Value) -> bool): (r: Result<(), Error>)
    ensures r.Ok? <==> Accepts(v, value, raises)
    ensures r.Err? ==>
      || r.error.Mismatch?
      || (r.error.Raised? && r.error.arg == value)
      || r.error == NotCallable(Undefined)
    ensures r.Err? && r.error.Mismatch? ==> r.error.actual == TypeOf(value)
  {
    match v
    case Missing => Err(NotCallable(Undefined))
    case TagIs(t, i) =>
      var actual := TypeOf(value);
      if actual == t then Ok(()) else Err(Mismatch(i, t, actual))
    case TagIn(ts, i) =>
      var actual := TypeOf(value);
      if Str(actual) in ts then Ok(()) else Err(Mismatch(i, ExpectedList(ts), actual))
    case Custom(f) => if raises(f, value) then Err(Raised(f, value)) else Ok(())
    case Each(ps) =>
      var rs := seq(|ps|, i requires 0 <= i < |ps| => Check(ps[i], value, raises));
      assert forall i :: 0 <= i < |ps| ==> rs[i] == Check(ps[i], value, raises);
      match Sequence(rs)
      case Ok(_) => Ok(())
      case Err(e) => Err(e)
  }

  /** A combined validator fails with the failure of its first failing part. */
  lemma EachFirstFailure(ps: seq<Validator>, value: Value, raises: (Value, Value) -> bool)
    ensures Check(Each(ps), value, raises).Ok? <==> forall i :: 0 <= i < |ps| ==> Check(ps[i], value, raises).Ok?
    ensures Check(Each(ps), value, raises).Err? ==>
      exists k :: 0 <= k < |ps| && Check(ps[k], value, raises) == Check(Each(ps), value, raises)
        && forall j :: 0 <= j < k ==> Accepts(ps[j], value, raises)
  {
    var rs := seq(|ps|, i requires 0 <= i < |ps| => Check(ps[i], value, raises));
    assert forall i :: 0 <= i < |ps| ==> rs[i] == Check(ps[i], value, raises);
  }

  /** The members of the `validators` table, all of them functions. */
  datatype Compiler = ValidateString | ValidateArray | ValidateFunction | ValidateObject | EmptyNoop

  const Compilers: map<string, Compiler> :=
    map["string" := ValidateString, "array" := ValidateArray, "function" := ValidateFunction,
        "object" := ValidateObject, "empty" := EmptyNoop]

  /** `validatorMap(entry, index)`: dispatch the entry through the table and
      run the chosen compiler. Compiling throws only for an object entry whose
      `types` is an object: there `validators` names the local array, which has
      no `string` member, so `validators.string(...)` calls `undefined`. */
  function Compile(entry: Value, index: Index): (r: Result<Validator, Error>)
    ensures r.Err? ==> r.error == NotCallable(Undefined)
    ensures IsEmpty(entry) ==> r == Ok(Missing)
    decreases Height(entry)
  {
    match Resolve(Compilers.Keys, entry, [index])
    case PassThrough(_) =>
      // Unreachable: every non-empty value is a string, an array, an object
      // or a function, and the table has a compiler for each.
      assert false; Ok(Missing)
    case Invoke(_, key, _, _) =>
      match Compilers[key]
      case EmptyNoop => Ok(Missing)
      case ValidateString => Ok(TagIs(entry.s, index))
      case ValidateArray => Ok(TagIn(entry.elems, index))
      case ValidateFunction => Ok(Custom(entry))
      case ValidateObject =>
        var types := Own(entry.fields, "types");
        if TypeOf(types) == "object" then Err(NotCallable(Undefined))
        else
          var items := Items(types);
          OwnHeight(entry.fields, "types");
          ItemsHeight(types);
          Combine(seq(|items|, i requires 0 <= i < |items| => Compile(items[i].val, items[i].index)))
  }

  /** The validator `validateObject` returns for the compiled items of
      `types`: it exists when every item compiled, and runs their results in
      order; the first item whose compilation threw decides the error. */
  function Combine(rs: seq<Result<Validator, Error>>): (r: Result<Validator, Error>)
    ensures r.Ok? <==> forall i :: 0 <= i < |rs| ==> rs[i].Ok?
    ensures r.Ok? ==>
      && r.value.Each? && |r.value.parts| == |rs|
      && forall i :: 0 <= i < |rs| ==> r.value.parts[i] == rs[i].value
    ensures r.Err? ==>
      exists k :: 0 <= k < |rs| && rs[k] == r && forall j :: 0 <= j < k ==> rs[j].Ok?
  {
    match Sequence(rs)
    case Ok(parts) => Ok(Each(parts))
    case Err(e) => Err(e)
  }

  /** The table receives the entry and its index: no branch of it is `default`,
      so `validatorMap` forwards the index to whichever compiler it picks, and
      the pass-through fallback is never taken. */
  lemma CompilerDispatch(entry: Value, index: Index)
    ensures Resolve(Compilers.Keys, entry, [index]).Invoke?
    ensures Resolve(Compilers.Keys, entry, [index]).extra == [index]
    ensures Resolve(Compilers.Keys, entry, [index]).key ==
      if IsEmpty(entry) then "empty" else TypeOf(entry)
  {
  }

  /** An empty entry (`''`, `[]`, `{}`, `undefined`, `null`, a number, a
      boolean, a function without own properties) leaves `undefined` in its
      slot, so its validator rejects every value with a TypeError. */
  lemma EmptyEntry(entry: Value, index: Index, value: Value, raises: (Value, Value) -> bool)
    requires IsEmpty(entry)
    ensures Compile(entry, index) == Ok(Missing)
    ensures !Accepts(Compile(entry, index).value, value, raises)
    ensures Check(Compile(entry, index).value, value, raises) == Err(NotCallable(Undefined))
  {
  }

  /** A string entry `s` accepts exactly the values whose tag is `s`, and
      otherwise fails with "Expected [s]; got [tag]" at its index. */
  lemma StringEntry(s: string, index: Index, value: Value, raises: (Value, Value) -> bool)
    requires s != ""
    ensures Compile(Str(s), index) == Ok(TagIs(s, index))
    ensures Check(TagIs(s, index), value, raises).Ok? <==> IsType(value, Str(s))
    ensures Check(TagIs(s, index), value, raises).Ok? <==> TypeOf(value) == s
    ensures Check(TagIs(s, index), value, raises).Err? ==>
      var e := Check(TagIs(s, index), value, raises).error;
      && e == Mismatch(index, s, TypeOf(value))
      && Message(e) == "Incompatible type for parameter " + FormatIndex(index) + ": Expected [" + s + "]; got [" + TypeOf(value) + "]"
  {
  }

  /** An array entry accepts exactly the values `isType` matches against it,
      and otherwise fails with its members joined by ", " as the expected part. */
  lemma ArrayEntry(tags: seq<Value>, index: Index, value: Value, raises: (Value, Value) -> bool)
    requires |tags| > 0
    ensures Compile(Arr(tags), index) == Ok(TagIn(tags, index))
    ensures Check(TagIn(tags, index), value, raises).Ok? <==> IsType(value, Arr(tags))
    ensures Check(TagIn(tags, index), value, raises).Err? ==>
      var e := Check(TagIn(tags, index), value, raises).error;
      && e == Mismatch(index, ExpectedList(tags), TypeOf(value))
      && Message(e) == "Incompatible type for parameter " + FormatIndex(index) + ": Expected [" + ExpectedList(tags) + "]; got [" + TypeOf(value) + "]"
  {
  }

  /** A function entry with own properties is its own validator: it rejects a
      value exactly when calling it on that value throws. */
  lemma FunctionEntry(entry: Value, index: Index, value: Value, raises: (Value, Value) -> bool)
    requires entry.Fun? && !IsEmpty(entry)
    ensures Compile(entry, index) == Ok(Custom(entry))
    ensures Check(Custom(entry), value, raises).Ok? <==> !raises(entry, value)
    ensures Check(Custom(entry), value, raises).Err? ==> Check(Custom(entry), value, raises).error == Raised(entry, value)
  {
  }

  /** An object entry whose `types` is itself an object (a per-property shape)
      cannot be compiled: the compiler throws before building anything. */
  lemma ShapeMapFails(entry: Value, index: Index)
    requires entry.Obj? && |entry.fields| > 0
    requires Own(entry.fields, "types").Obj?
    ensures Compile(entry, index) == Err(NotCallable(Undefined))
  {
  }

  /** A non-empty object entry whose `types` is not an object compiles every
      item `_.map` visits in `types`, with that item's index. It compiles
      exactly when every item does, into a combination with one part per item
      in order; otherwise it fails with the error of the first item that
      fails. */
  lemma ObjectEntryUnfolds(entry: Value, index: Index)
    requires entry.Obj? && |entry.fields| > 0
    requires TypeOf(Own(entry.fields, "types")) != "object"
    ensures var items := Items(Own(entry.fields, "types"));
      var r := Compile(entry, index);
      && (r.Ok? <==> forall i :: 0 <= i < |items| ==> Compile(items[i].val, items[i].index).Ok?)
      && (r.Ok? ==>
            && r.value.Each? && |r.value.parts| == |items|
            && forall i :: 0 <= i < |items| ==> r.value.parts[i] == Compile(items[i].val, items[i].index).value)
      && (r.Err? ==>
            exists k :: 0 <= k < |items| && Compile(items[k].val, items[k].index) == r
              && forall j :: 0 <= j < k ==> Compile(items[j].val, items[j].index).Ok?)
  {
    var items := Items(Own(entry.fields, "types"));
    var rs := seq(|items|, i requires 0 <= i < |items| => Compile(items[i].val, items[i].index));
    ObjectBranch(entry, index);
    assert forall i :: 0 <= i < |items| ==> rs[i] == Compile(items[i].val, items[i].index);
    var r := Compile(entry, index);
    if r.Err? {
      var k :| 0 <= k < |rs| && rs[k] == r && forall j :: 0 <= j < k ==> rs[j].Ok?;
      assert Compile(items[k].val, items[k].index) == r;
    }
  }

  /** `validateObject` is the compiler the table picks for such an entry. */
  lemma ObjectBranch(entry: Value, index: Index)
    requires entry.Obj? && |entry.fields| > 0
    requires TypeOf(Own(entry.fields, "types")) != "object"
    ensures var items := Items(Own(entry.fields, "types"));
      Compile(entry, index) == Combine(seq(|items|, i requires 0 <= i < |items| => Compile(items[i].val, items[i].index)))
  {
    assert Resolve(Compilers.Keys, entry, [index]) == Invoke(ExactRule, "object", entry, [index]);
    assert Compilers["object"] == ValidateObject;
  }

  /** An object entry whose `types` is an array compiles every element at its
      position in `types`; it compiles when they all do, fails with the first
      element's failure otherwise, and the result runs the elements in order. */
  lemma SequenceTypesEntry(entry: Value, index: Index, elems: seq<Value>)
    requires entry.Obj? && |entry.fields| > 0
    requires Own(entry.fields, "types") == Arr(elems)
    ensures Compile(entry, index).Ok? <==> forall i :: 0 <= i < |elems| ==> Compile(elems[i], Pos(i)).Ok?
    ensures Compile(entry, index).Ok? ==>
      && Compile(entry, index).value.Each?
      && |Compile(entry, index).value.parts| == |elems|
      && forall i :: 0 <= i < |elems| ==> Compile(entry, index).value.parts[i] == Compile(elems[i], Pos(i)).value
  {
    var items := Items(Arr(elems));
    var rs := seq(|items|, i requires 0 <= i < |items| => Compile(items[i].val, items[i].index));
    ObjectEntryUnfolds(entry, index);
    assert forall i :: 0 <= i < |elems| ==> rs[i] == Compile(elems[i], Pos(i));
  }

  /** An object entry whose `types` array holds an empty element (such as
      `{types: [5]}`) builds a combination that calls `undefined` as one of
      its parts, so it rejects every value. */
  lemma EmptyElementRejectsAll(entry: Value, index: Index, elems: seq<Value>, k: nat, value: Value,
                               raises: (Value, Value) -> bool)
    requires entry.Obj? && |entry.fields| > 0
    requires Own(entry.fields, "types") == Arr(elems)
    requires k < |elems| && IsEmpty(elems[k])
    ensures Compile(entry, index).Ok?
      ==> !Accepts(Compile(entry, index).value, value, raises)
    ensures Compile(entry, index).Ok?
      ==> Check(Compile(entry, index).value, value, raises).Err?
  {
    SequenceTypesEntry(entry, index, elems);
    EmptyEntry(elems[k], Pos(k), value, raises);
  }

  /** An object entry without `types` (for example one that only carries a
      `default`) compiles to a combination of nothing, which accepts all. */
  lemma AbsentTypesAcceptsAll(entry: Value, index: Index, value: Value, raises: (Value, Value) -> bool)
    requires entry.Obj? && |entry.fields| > 0
    requires !HasKey(entry.fields, "types")
    ensures Compile(entry, index) == Ok(Each([]))
    ensures Check(Each([]), value, raises) == Ok(())
  {
  }
}

=== FILE: values.dfy ===
/** JavaScript values as the guard sees them. Objects and functions carry their
    own enumerable properties as an ordered field list; numbers are integers. */
module Values {
  import opened Wrappers
  import opened Text

  datatype Value =
    | Undefined
    | Null
    | Bool(b: bool)
    | Num(n: int)
    | Str(s: string)
    | Arr(elems: seq<Value>)
    | Obj(fields: seq<Field>)
      /** A function: identity, declared parameter count (`fn.length`), source
          text (what `String(fn)` prints) and own enumerable properties. */
    | Fun(id: nat, arity: nat, source: string, props: seq<Field>)

  datatype Field = Field(key: string, val: Value)

  /** A JavaScript object never holds the same key twice. */
  predicate DistinctKeys(fs: seq<Field>)
  {
    forall i, j :: 0 <= i < j < |fs| ==> fs[i].key != fs[j].key
  }

  /** The first field stored under `k`. */
  function Lookup(fs: seq<Field>, k: string): (r: Option<Value>)
    ensures r.None? <==> forall i :: 0 <= i < |fs| ==> fs[i].key != k
    ensures r.Some? ==> exists i :: 0 <= i < |fs| && fs[i] == Field(k, r.value)
  {
    if |fs| == 0 then None
    else if fs[0].key == k then Some(fs[0].val)
    else
      var r := Lookup(fs[1..], k);
      assert forall i :: 1 <= i < |fs| ==> fs[i] == fs[1..][i - 1];
      r
  }

  /** Reading own property `k`: its value, or `undefined` when it is missing. */
  function Own(fs: seq<Field>, k: string): Value
  {
    match Lookup(fs, k)
    case Some(v) => v
    case None => Undefined
  }

  predicate HasKey(fs: seq<Field>, k: string)
  {
    Lookup(fs, k).Some?
  }

  lemma OwnCons(f: Field, rest: seq<Field>, k: string)
    ensures Own([f] + rest, k) == if f.key == k then f.val else Own(rest, k)
    ensures HasKey([f] + rest, k) <==> f.key == k || HasKey(rest, k)
  {
    assert ([f] + rest)[0] == f;
    assert ([f] + rest)[1..] == rest;
  }

  /** JavaScript truthiness (`if (x)`, `x || y`). */
  predicate Truthy(v: Value)
  {
    match v
    case Undefined => false
    case Null => false
    case Bool(b) => b
    case Num(n) => n != 0
    case Str(s) => s != ""
    case _ => true
  }

  /** Reading a named property `holder.name`, for names that are neither array
      indices, `length`, nor members inherited from a prototype. Reading any
      property of `undefined` or `null` throws, which is `None` here. */
  function Property(holder: Value, name: string): (r: Option<Value>)
    ensures r.None? <==> holder.Undefined? || holder.Null?
    ensures holder.Obj? ==> r == Some(Own(holder.fields, name))
    ensures holder.Fun? ==> r == Some(Own(holder.props, name))
  {
    match holder
    case Undefined => None
    case Null => None
    case Obj(fs) => Some(Own(fs, name))
    case Fun(_, _, _, ps) => Some(Own(ps, name))
    case _ => Some(Undefined)
  }

  /** `String(v)`: arrays join their elements with "," (an `undefined` or
      `null` element becomes the empty string). */
  function ToJsString(v: Value): string
    decreases v, 0
  {
    match v
    case Undefined => "undefined"
    case Null => "null"
    case Bool(b) => if b then "true" else "false"
    case Num(n) => IntToString(n)
    case Str(s) => s
    case Arr(es) =>
      Join(seq(|es|, i requires 0 <= i < |es| => JoinElement(es[i])), ",")
    case Obj(_) => "[object Object]"
    case Fun(_, _, src, _) => src
  }

  /** How `Array.prototype.join` renders one element. */
  function JoinElement(v: Value): string
    decreases v, 1
  {
    if v.Undefined? || v.Null? then "" else ToJsString(v)
  }

  // Nesting depth, the measure that makes compiling nested guidelines terminate.

  function Max(a: nat, b: nat): nat
  {
    if a < b then b else a
  }

  function Height(v: Value): nat
  {
    match v
    case Arr(es) => 1 + ElemsHeight(es)
    case Obj(fs) => 1 + FieldsHeight(fs)
    case Fun(_, _, _, ps) => 1 + FieldsHeight(ps)
    case _ => 0
  }

  function ElemsHeight(es: seq<Value>): nat
  {
    if |es| == 0 then 0 else Max(Height(es[0]), ElemsHeight(es[1..]))
  }

  function FieldsHeight(fs: seq<Field>): nat
  {
    if |fs| == 0 then 0 else Max(Height(fs[0].val), FieldsHeight(fs[1..]))
  }

  lemma {:induction false} ElemHeight(es: seq<Value>, i: nat)
    requires i < |es|
    ensures Height(es[i]) <= ElemsHeight(es)
  {
    if i > 0 {
      ElemHeight(es[1..], i - 1);
      assert es[1..][i - 1] == es[i];
    }
  }

  lemma {:induction false} FieldHeight(fs: seq<Field>, i: nat)
    requires i < |fs|
    ensures Height(fs[i].val) <= FieldsHeight(fs)
  {
    if i > 0 {
      FieldHeight(fs[1..], i - 1);
      assert fs[1..][i - 1] == fs[i];
    }
  }

  /** A property read never yields something deeper than its holder's fields. */
  lemma OwnHeight(fs: seq<Field>, k: string)
    ensures Height(Own(fs, k)) <= FieldsHeight(fs)
  {
    if Lookup(fs, k).Some? {
      var i :| 0 <= i < |fs| && fs[i] == Field(k, Lookup(fs, k).value);
      FieldHeight(fs, i);
    }
  }
}

=== FILE: wrappers.dfy ===
/** Option and Result: the shapes the model uses for "maybe absent" and for
    JavaScript exceptions, which become `Err` values instead of throws. */
module Wrappers {

  datatype Option<+T> = None | Some(value: T)

  datatype Result<+T, +E> = Ok(value: T) | Err(error: E)

  /** Runs a sequence of computations that may fail, in order, stopping at the
      first failure; collects all the values when none fails. This is how a
      lodash `_.map` or `_.each` whose callback may throw behaves. */
  function Sequence<T, E>(rs: seq<Result<T, E>>): (r: Result<seq<T>, E>)
    ensures r.Ok? <==> forall i :: 0 <= i < |rs| ==> rs[i].Ok?
    ensures r.Ok? ==> |r.value| == |rs| && forall i :: 0 <= i < |rs| ==> rs[i] == Ok(r.value[i])
    ensures r.Err? ==> exists k :: 0 <= k < |rs| && rs[k] == Err(r.error) && forall j :: 0 <= j < k ==> rs[j].Ok?
  {
    if |rs| == 0 then Ok([])
    else match rs[0]
      case Err(e) => Err(e)
      case Ok(x) =>
        match Sequence(rs[1..])
        case Err(e) =>
          assert exists k :: 0 <= k < |rs| && rs[k] == Err(e) && forall j :: 0 <= j < k ==> rs[j].Ok? by {
            var k :| 0 <= k < |rs[1..]| && rs[1..][k] == Err(e) && forall j :: 0 <= j < k ==> rs[1..][j].Ok?;
            assert rs[k + 1] == Err(e);
            forall j | 0 <= j < k + 1 ensures rs[j].Ok? {
              if j > 0 { assert rs[j] == rs[1..][j - 1]; }
            }
          }
          Err(e)
        case Ok(xs) =>
          assert forall i :: 1 <= i < |rs| ==> rs[i] == rs[1..][i - 1];
          Ok([x] + xs)
  }
}
